=== FILE: README.md ===
# queso: recording sessions and the execution sandbox, in Dafny

queso records a coding session so it can be replayed later. It captures text
edits, cursor and selection moves, and audio. Each event is stored under its
offset in milliseconds from the moment recording started. A separate server
component runs submitted Python code inside a per-session working
directory and streams the output back.

This project models two state machines as pure transition functions:

- **The recording page** (`Record` module, `record.dfy`). It holds the
  component state: `name`, `code`, `recording`, `done`, `start`, whether an
  audio `recorder` exists, and `enabled`. The handlers `init`, `onName`,
  `onCode`, `onCursor`, `onRecord` and `onStop` each take the state and the
  session's slice of the realtime store, and return the new state and store.
  `onCode`, `onCursor`, `onRecord` and `onStop` also take the clock reading
  `now`. `init` takes whether the microphone was granted instead, and
  `onName` takes the new name. The render guards on the Record/Stop
  button, the name field and the editor are modelled as predicates. The
  `Capture` module (`capture.dfy`) runs whole sequences of edits and cursor
  moves through the handlers.
- **The sandbox connection** (`Client` module, `client.dfy`). It covers the
  `dir` getter and the `record`, `replay`, `compile` and `disconnect`
  handlers. The file system is a set of directories plus a map from file
  paths to contents. Socket emits and process spawns are returned as
  ordered logs.

Supporting modules:

- `Store` (`store.dfy`) gives the store a typed shape. The paths under a
  session become the fields `initial`, `code/{offset}`, `select/{offset}`,
  `owner`, `recording` and `name`.
- `Selection` (`selection.dfy`) gives the exact JSON text that a cursor
  move stores, plus a parser for it. The parser is the serialiser's partner.
- `Wrappers` (`wrappers.dfy`) holds `Option`. It also stands for an
  `undefined` JavaScript field.

JavaScript semantics are kept where the code relies on them:

- `!this.state.start` treats a start of `0` as unset (`StartBound`).
- `done` holds a JavaScript value (`Done`). `init` copies the stored boolean
  `recording` flag into it, and `onStop` stores `now - start`, which is
  `NaN` when `start` is undefined. Only truthy values lock the page.
- `${ws}/${id}` with no id bound gives `ws/undefined`.
- `onRecord` and `onStop` call a method on `recorder`. Without a recorder
  that call throws. The `Threw` outcome keeps the writes that happened
  before the throw.

Points about the code that are easy to misread:

- `start` is set by `onRecord` to the instant recording begins. The lazy
  binding in `onCode` and `onCursor` happens only when `start` is unset.
- `onStop` writes nothing to the store. The stored `recording` flag stays
  true, and `done` exists only in the page state.
- The entry file is always `main.py` and the interpreter is `python`.
- The audio clip exported on stop is only logged, not persisted.

## Model

| member | source | states |
|---|---|---|
| Record.Init | src/browser/ts/record/record.tsx:57-93 | the page code becomes the stored `initial.code`, or `''` without one; the name is the stored name; `done` is truthy exactly when the stored recording flag is true; the store is not written; a granted microphone leaves a recorder and `enabled`, and a refused one throws and leaves both as they were |
| Record.OnName | src/browser/ts/record/record.tsx:113-119 | state and store both take the new name and nothing else changes |
| Record.OnCode | src/browser/ts/record/record.tsx:121-141 | when not recording, only the `initial` snapshot is rewritten, to `{code, history}`, and no code entry appears; when recording, exactly one code entry is written, at `now - start`, and `initial` is untouched; a bound `start` never changes, and while recording an unbound one becomes `now` (when not recording it stays unbound) |
| Record.OnCursor | src/browser/ts/record/record.tsx:145-169 | when not recording, state and store are unchanged; when recording, exactly one select entry is written, at `now - start`, holding the selection's JSON text, and nothing else in the store changes |
| Record.CursorPayloadDecodes | src/browser/ts/record/record.tsx:150-168 | the stored select text decodes to exactly the anchor and head of the cursor move |
| Record.CursorIgnoresCode | src/browser/ts/record/record.tsx:150-168 | what a cursor move writes does not depend on the document text |
| Record.OnRecord | src/browser/ts/record/record.tsx:175-195 | writes the owner uid and `initial = {code or '', history}`; with a recorder it clears and starts capture, sets `recording`, `start = now`, the stored flag and `enabled` again; without one it throws after the two writes and stays disabled |
| Record.OnStop | src/browser/ts/record/record.tsx:213-229 | the store is untouched and the page ends disabled; with a recorder, capture stops, `recording` becomes false and `done` becomes `now - start` (`NaN` without a start); without one it throws |
| Record.StopElapsed | src/browser/ts/record/record.tsx:224-227 | for a recording session with a bound start, `done` is `now - start`, which is non-negative when `start <= now` |
| Record.ControlOf | src/browser/ts/record/record.tsx:239-251 | the Stop button shows exactly while recording and is live exactly when `enabled`; the view link shows exactly when not recording and `done` is truthy; otherwise the Record button shows, live exactly with a recorder and `enabled`; `RecordButtonGuard`, `BusyIsInert` and `StopIsFinal` state what this allows |
| Record.RecordButtonGuard | src/browser/ts/record/record.tsx:239-251 | the Record button is live exactly when not recording, `done` is falsy, a recorder exists and `enabled` holds |
| Record.BusyIsInert | src/browser/ts/record/record.tsx:239-251 | once a handler has set `enabled = false`, neither the Record nor the Stop button can fire |
| Record.RecordShowsStop | src/browser/ts/record/record.tsx:187-194 | after a completed `onRecord` the live Stop button is shown |
| Record.StopIsFinal | src/browser/ts/record/record.tsx:213-227 | after `onStop`, whether it completes or throws, no button can start recording again or stop again |
| Record.ReopenRecordedIsLocked | src/browser/ts/record/record.tsx:58-64 | loading a session whose stored flag says it was recorded shows the view link and locks the editor |
| Record.NewSessionOpensBlank | src/browser/ts/record/record.tsx:57-93 | a session with nothing stored opens with empty code, no name and an editable page, and the Record button is live exactly when the microphone was granted |
| Record.DeniedDeviceStillEditable | src/browser/ts/record/record.tsx:57-93 | on a fresh page, a refused microphone leaves the Record button inert but the editor editable |
| Record.HandlePreservesConsistent | src/browser/ts/record/record.tsx:175-190 | with a clock after the epoch, no handler leaves a recording session without a bound start |
| Selection.Serialize | src/browser/ts/record/record.tsx:153-168 | the stored selection is a JSON object text, braces at both ends; `ParseSerialize` states that it reads back to the same selection |
| Selection.ParseSerialize | src/browser/ts/record/record.tsx:153-168 | the JSON text of `{anchor:{line,ch}, head:{line,ch}}` parses back to the same positions |
| Selection.SerializeInjective | src/browser/ts/record/record.tsx:153-168 | different selections are stored as different texts |
| Capture.CaptureKeepsStart | src/browser/ts/record/record.tsx:130-138 | over any run of edits and moves while recording with a bound start, the start and the recording flag stay, and only the code and select maps are written |
| Capture.OffsetsFromFirst | src/browser/ts/record/record.tsx:136-137 | in a run whose clock readings never go backwards, every offset its edits and moves map to is at or after the first event's offset |
| Capture.RecordedOffsetsNonNegative | src/browser/ts/record/record.tsx:136-137 | after a completed `onRecord` at a truthy reading `t0`, a run whose readings never go backwards and start at or after `t0` adds code and select entries only at non-negative offsets |
| Capture.CapturedEdits | src/browser/ts/record/record.tsx:130-138 | while recording from start `t0`, when no two edits share a clock reading, in whatever order the readings come (moves may share readings), every edit's `{code, history}` is stored under `at - t0` |
| Capture.EditsFrame | src/browser/ts/record/record.tsx:130-138 | a code entry at any offset no edit of the run maps to is left as it was |
| Capture.CapturedMoves | src/browser/ts/record/record.tsx:163-168 | while recording from start `t0`, when no two moves share a clock reading (edits may share readings), every move's selection text is stored under `at - t0` |
| Capture.MovesFrame | src/browser/ts/record/record.tsx:163-168 | a select entry at any offset no move of the run maps to is left as it was |
| Capture.EditOrder | src/browser/ts/record/record.tsx:136-137 | when each edit's clock reading is below every later edit's, an earlier edit is stored under a smaller offset than a later one, so offset order is the order the edits were made in |
| Capture.KeystrokeStoresBoth | src/browser/ts/record/record.tsx:130-168 | an edit and a cursor move at the same clock reading are both kept, under the same offset in the code and select entries |
| Capture.DraftsBeforeRecording | src/browser/ts/record/record.tsx:121-149 | before recording, a run of edits and moves leaves `initial` holding the last edit (or unchanged without edits), writes no offset-keyed entry and leaves `start` alone |
| Client.Dir | src/server/client.ts:20-22 | the working directory is `ws/` followed by the bound id (`undefined` when none is bound) |
| Client.DirInjective | src/server/client.ts:20-22 | different bound ids give different working directories |
| Client.OnRecord | src/server/client.ts:24-28 | binds the id, the directory `ws/id` exists afterwards, no file changes, exactly one `record` ack is sent, and `cleanup` is unchanged |
| Client.OnReplay | src/server/client.ts:30-34 | binds the id, sets `cleanup`, the directory `ws/id` exists afterwards, and nothing is sent |
| Client.OnCompile | src/server/client.ts:36-39 | when the directory exists, `dir/main.py` holds exactly the code, every other file is unchanged, and `python main.py` is spawned with working directory `dir`; exactly one emit is sent per output chunk and none of them is a `record` ack; the `out` texts are the stdout chunks and the `err` texts the stderr chunks; without the directory nothing happens |
| Client.Relay | src/server/client.ts:38 | one emit per output chunk, in order: stdout on `out`, stderr on `err` |
| Client.RelaySeparatesChannels | src/server/client.ts:38 | the `out` channel carries exactly the stdout texts and the `err` channel exactly the stderr texts, each in order |
| Client.OnDisconnect | src/server/client.ts:41-45 | with `cleanup`, the directory and everything under it are removed and everything else is kept; without it, the file system is unchanged |
| Client.CleanupIsSticky | src/server/client.ts:24-34 | after any message sequence, `cleanup` holds exactly when it held before or some message was a `replay` |
| Client.RecordedSessionSurvives | src/server/client.ts:24-45 | `record(id)`, `compile`, `disconnect` leaves `ws/id` and its `main.py` in place |
| Client.ReplaySessionRemoved | src/server/client.ts:30-45 | `replay(id)`, `disconnect` leaves nothing under `ws/id` |
| Client.SessionsDisjoint | src/server/client.ts:20-22 | for ids without `/` other than `""`, `.` and `..`, a path lies under at most one session's directory |
| Client.DisconnectSparesOtherSessions | src/server/client.ts:41-45 | for ids without `/` other than `""`, `.` and `..`, a disconnect never removes or changes another session's files |
| Client.NestedIdBreaksIsolation | src/server/client.ts:41-45 | ids are not checked: a replay viewer of `x` leaving removes the program of session `x/y` |
| Client.DotIdsReachEverySession | src/server/client.ts:41-45 | the ids `""`, `.` and `..` are not plain, and once `.` and `..` are resolved their directory contains session `b`'s `main.py`, which the string-prefix removal does not see |

## Left out

- Audio: the Web Audio graph, `getUserMedia` options, `Recorder` internals, WAV export and base64 conversion. These are device I/O and a foreign library. The recorder is reduced to its clear/record/stop calls, and the microphone request to a granted/refused flag.
- The CodeMirror edit history and `setHistory`/`getHistory`. The history is opaque text supplied by the caller, and the editor is not modelled.
- React rendering, `browserHistory` navigation, `generate`, the clock display and focus. Only the guards on the buttons, the name field and the editor are kept.
- The store's network behaviour, subscriptions and failures. The store is a value read and written in one step. How offsets become path keys is not modelled.
- Concurrency between in-flight async handlers on either side. Each handler runs to completion before the next one starts. `compile` reading `dir` twice across an `await` is therefore not modelled.
- Socket.IO transport and handler registration.
- The interpreter process itself, its exit status and its timing. Its output is an input sequence of stdout/stderr chunks.
- `Base` (mkdirp, writeFile, rm, spawn) is not part of this model: its implementations are not visible, so they are modelled as abstract operations on the file system value (`Mkdirp`, `Rm`, the write in `OnCompile`) and as a logged `Proc` for the spawn.
- Client.OnCompile: assumes `writeFile` fails, spawning nothing, when the working directory is missing (as Node's `fs.writeFile` does), because `Base` is not visible.
- Client.OnRecord: `mkdirp` is modelled as creating only the session directory. Parent directories are not tracked, and the workspace root is taken to exist.
- Client.OnDisconnect: `rm` is modelled as a recursive removal that always succeeds. Removal failures are not modelled.
- Capture.CapturedEdits: when two edits share a clock reading, only the later one is kept. The lemma covers runs in which no two edits share a reading; `EditsFrame` and `OnCode` state the overwrite. `now` is taken to be an integer reading in milliseconds; where the page gets it from is not part of this model.
- Capture.CapturedMoves: when two cursor moves share a clock reading, only the later selection is kept. The lemma covers runs in which no two moves share a reading; `MovesFrame` and `OnCursor` state the overwrite.
- Record.DeniedDeviceStillEditable, Record.StopIsFinal: the error handlers that a rejected `init` (`.catch(this.catch)`, lines 43 and 54 of src/browser/ts/record/record.tsx) and a throwing `onRecord` or `onStop` (through `this.attach`, lines 240 and 249) reach are not part of this model. They are assumed to leave the page state as it was at the throw, which is what the `Threw` outcome keeps.
- Client.OnDisconnect: paths are kept as strings and `Rm` removes by string prefix. `.`, `..` and empty segments are not resolved, so for the ids `""`, `.` and `..`, whose directories are the workspace root or its parent, the model removes less than the file system would. `DotIdsReachEverySession` shows the gap; isolation is proved only for plain ids.
- Client.OnRecord, Client.OnReplay, Client.OnDisconnect: `mkdirp` and `rm` are called without `await` (lines 26, 33 and 43 of src/server/client.ts), so the `record` ack can be sent before the directory exists. The model treats both as finished when the handler returns.

=== FILE: capture.dfy ===
/** Runs of editor events through the recording page's handlers: what a
    whole stretch of typing and cursor movement leaves in the store, before
    recording and during it. */
module Capture {
  import opened Wrappers
  import opened Store
  import opened Record
  import Selection

  /** An editor event with the clock reading its handler takes. */
  datatype Event =
    | EditAt(at: int, code: string, history: string)
    | MoveAt(at: int, sel: Selection.Range)

  function Apply(s: Session, db: Db, e: Event): Step {
    match e
    case EditAt(at, code, history) => OnCode(s, db, at, code, history)
    case MoveAt(at, sel) => OnCursor(s, db, at, sel)
  }

  /** The handlers run one after another, each seeing the previous one's
      state and store. */
  function Play(s: Session, db: Db, evs: seq<Event>): Step
    decreases |evs|
  {
    if |evs| == 0 then Step(s, db)
    else
      var st := Apply(s, db, evs[0]);
      Play(st.session, st.db, evs[1..])
  }

  /** Clock readings never go backwards along the run. */
  predicate NonDecreasing(evs: seq<Event>)
    decreases |evs|
  {
    |evs| <= 1 || (evs[0].at <= evs[1].at && NonDecreasing(evs[1..]))
  }

  /** The offsets the edits of a run are stored under, from start `t0`. */
  function EditOffsets(evs: seq<Event>, t0: int): set<int>
    decreases |evs|
  {
    if |evs| == 0 then {}
    else (if evs[0].EditAt? then {evs[0].at - t0} else {}) + EditOffsets(evs[1..], t0)
  }

  /** The offsets the cursor moves of a run are stored under. */
  function MoveOffsets(evs: seq<Event>, t0: int): set<int>
    decreases |evs|
  {
    if |evs| == 0 then {}
    else (if evs[0].MoveAt? then {evs[0].at - t0} else {}) + MoveOffsets(evs[1..], t0)
  }

  /** Every edit of the run has a clock reading above `t`. */
  predicate EditsAfter(t: int, evs: seq<Event>)
    decreases |evs|
  {
    |evs| == 0 || ((evs[0].EditAt? ==> t < evs[0].at) && EditsAfter(t, evs[1..]))
  }

  /** Every edit's clock reading is below that of every later edit; moves
      may share readings with edits and with each other. */
  predicate EditsIncreasing(evs: seq<Event>)
    decreases |evs|
  {
    |evs| == 0 ||
    ((evs[0].EditAt? ==> EditsAfter(evs[0].at, evs[1..])) && EditsIncreasing(evs[1..]))
  }

  /** No edit of the run has clock reading `t`. */
  predicate EditsApart(t: int, evs: seq<Event>)
    decreases |evs|
  {
    |evs| == 0 || ((evs[0].EditAt? ==> t != evs[0].at) && EditsApart(t, evs[1..]))
  }

  /** No cursor move of the run has clock reading `t`. */
  predicate MovesApart(t: int, evs: seq<Event>)
    decreases |evs|
  {
    |evs| == 0 || ((evs[0].MoveAt? ==> t != evs[0].at) && MovesApart(t, evs[1..]))
  }

  /** No two edits share a clock reading, in whatever order the readings
      come; moves may share readings with edits and with each other. */
  predicate EditsDistinct(evs: seq<Event>)
    decreases |evs|
  {
    |evs| == 0 ||
    ((evs[0].EditAt? ==> EditsApart(evs[0].at, evs[1..])) && EditsDistinct(evs[1..]))
  }

  /** No two cursor moves share a clock reading; edits may share readings
      with moves and with each other. */
  predicate MovesDistinct(evs: seq<Event>)
    decreases |evs|
  {
    |evs| == 0 ||
    ((evs[0].MoveAt? ==> MovesApart(evs[0].at, evs[1..])) && MovesDistinct(evs[1..]))
  }

  /** Every offset of a run whose readings never go backwards is at or after
      its first event's. */
  lemma {:induction false} OffsetsFromFirst(evs: seq<Event>, t0: int)
    requires |evs| > 0 && NonDecreasing(evs)
    ensures forall o :: o in EditOffsets(evs, t0) ==> o >= evs[0].at - t0
    ensures forall o :: o in MoveOffsets(evs, t0) ==> o >= evs[0].at - t0
    decreases |evs|
  {
    if |evs| > 1 {
      OffsetsFromFirst(evs[1..], t0);
    }
  }

  /** Readings other than `t` give offsets other than `t - t0`. */
  lemma {:induction false} ApartIsFresh(t: int, evs: seq<Event>, t0: int)
    ensures EditsApart(t, evs) ==> t - t0 !in EditOffsets(evs, t0)
    ensures MovesApart(t, evs) ==> t - t0 !in MoveOffsets(evs, t0)
    decreases |evs|
  {
    if |evs| > 0 {
      ApartIsFresh(t, evs[1..], t0);
    }
  }

  /** Strictly increasing edit readings are in particular distinct. */
  lemma {:induction false} IncreasingIsDistinct(evs: seq<Event>)
    requires EditsIncreasing(evs)
    ensures EditsDistinct(evs)
    decreases |evs|
  {
    if |evs| > 0 {
      if evs[0].EditAt? {
        AfterIsApart(evs[0].at, evs[1..]);
      }
      IncreasingIsDistinct(evs[1..]);
    }
  }

  /** Readings above `t` differ from `t`. */
  lemma {:induction false} AfterIsApart(t: int, evs: seq<Event>)
    requires EditsAfter(t, evs)
    ensures EditsApart(t, evs)
    decreases |evs|
  {
    if |evs| > 0 {
      AfterIsApart(t, evs[1..]);
    }
  }

  /** `EditsAfter` holds of each edit of the run. */
  lemma {:induction false} AfterEach(t: int, evs: seq<Event>, j: nat)
    requires j < |evs| && EditsAfter(t, evs) && evs[j].EditAt?
    ensures t < evs[j].at
    decreases j
  {
    if j > 0 {
      assert evs[1..][j - 1] == evs[j];
      AfterEach(t, evs[1..], j - 1);
    }
  }

  /** When edits' readings are distinct, a leading edit's offset is not
      used again by a later edit. */
  lemma FirstEditFresh(evs: seq<Event>, t0: int)
    requires |evs| > 0 && evs[0].EditAt? && EditsDistinct(evs)
    ensures evs[0].at - t0 !in EditOffsets(evs[1..], t0)
  {
    ApartIsFresh(evs[0].at, evs[1..], t0);
  }

  /** When moves' readings are distinct, a leading move's offset is not
      used again by a later move. */
  lemma FirstMoveFresh(evs: seq<Event>, t0: int)
    requires |evs| > 0 && evs[0].MoveAt? && MovesDistinct(evs)
    ensures evs[0].at - t0 !in MoveOffsets(evs[1..], t0)
  {
    ApartIsFresh(evs[0].at, evs[1..], t0);
  }

  /** With edits' readings strictly increasing, an earlier edit of the run
      has a smaller reading, so a smaller stored offset, than a later one. */
  lemma {:induction false} EditOrder(evs: seq<Event>, i: nat, j: nat)
    requires EditsIncreasing(evs)
    requires i < j < |evs| && evs[i].EditAt? && evs[j].EditAt?
    ensures evs[i].at < evs[j].at
    decreases i
  {
    if i == 0 {
      assert evs[1..][j - 1] == evs[j];
      AfterEach(evs[0].at, evs[1..], j - 1);
    } else {
      EditOrder(evs[1..], i - 1, j - 1);
      assert evs[1..][i - 1] == evs[i];
      assert evs[1..][j - 1] == evs[j];
    }
  }

  /** One event while recording from a bound start: the start and the
      recording flag stay, and exactly one entry of the matching map is
      written at `at - t0`. */
  lemma ApplyWhileRecording(s: Session, db: Db, e: Event)
    requires s.recording && StartBound(s)
    ensures var st := Apply(s, db, e);
            var o := e.at - s.start.value;
            && st.session.recording && st.session.start == s.start
            && st.db == db.(code := st.db.code, select := st.db.select)
            && (e.EditAt? ==> PointWrite(db.code, st.db.code, o, Snapshot(e.code, e.history)) && st.db.select == db.select)
            && (e.MoveAt? ==> PointWrite(db.select, st.db.select, o, Selection.Serialize(e.sel)) && st.db.code == db.code)
  {
  }

  /** While recording from a bound start, a run keeps recording with the
      same start and writes only the offset-keyed maps of the store. */
  lemma {:induction false} CaptureKeepsStart(s: Session, db: Db, evs: seq<Event>)
    requires s.recording && StartBound(s)
    ensures var r := Play(s, db, evs);
            && r.session.recording && r.session.start == s.start
            && r.db == db.(code := r.db.code, select := r.db.select)
    decreases |evs|
  {
    if |evs| > 0 {
      var st := Apply(s, db, evs[0]);
      ApplyWhileRecording(s, db, evs[0]);
      CaptureKeepsStart(st.session, st.db, evs[1..]);
    }
  }

  /** While recording from a bound start `t0`, a run leaves every
      code entry whose offset is not `at - t0` for one of its edits as
      it was. */
  lemma {:induction false} EditsFrame(s: Session, db: Db, evs: seq<Event>, o: int)
    requires s.recording && StartBound(s)
    requires o !in EditOffsets(evs, s.start.value)
    ensures var r := Play(s, db, evs);
            && (o in r.db.code <==> o in db.code)
            && (o in db.code ==> r.db.code[o] == db.code[o])
    decreases |evs|
  {
    if |evs| > 0 {
      var st := Apply(s, db, evs[0]);
      ApplyWhileRecording(s, db, evs[0]);
      EditsFrame(st.session, st.db, evs[1..], o);
    }
  }

  /** Every edit of the run is stored in `code` under its offset from `t0`. */
  predicate EditsStored(evs: seq<Event>, t0: int, code: map<int, Snapshot>)
    decreases |evs|
  {
    |evs| == 0 ||
    ((evs[0].EditAt? ==> evs[0].at - t0 in code && code[evs[0].at - t0] == Snapshot(evs[0].code, evs[0].history))
     && EditsStored(evs[1..], t0, code))
  }

  /** `EditsStored` holds of each edit of the run. */
  lemma {:induction false} EditsStoredEach(evs: seq<Event>, t0: int, code: map<int, Snapshot>, i: nat)
    requires EditsStored(evs, t0, code) && i < |evs| && evs[i].EditAt?
    ensures evs[i].at - t0 in code && code[evs[i].at - t0] == Snapshot(evs[i].code, evs[i].history)
    decreases i
  {
    if i > 0 {
      assert evs[1..][i - 1] == evs[i];
      EditsStoredEach(evs[1..], t0, code, i - 1);
    }
  }

  /** Run by run: each leading edit is stored and survives the rest. */
  lemma {:induction false} RunEditsStored(s: Session, db: Db, evs: seq<Event>)
    requires s.recording && StartBound(s)
    requires EditsDistinct(evs)
    ensures EditsStored(evs, s.start.value, Play(s, db, evs).db.code)
    decreases |evs|
  {
    if |evs| > 0 {
      var st := Apply(s, db, evs[0]);
      var rest := evs[1..];
      ApplyWhileRecording(s, db, evs[0]);
      assert EditsDistinct(rest);
      RunEditsStored(st.session, st.db, rest);
      assert Play(s, db, evs) == Play(st.session, st.db, rest);
      if evs[0].EditAt? {
        FirstEditStored(s, db, evs);
      }
    }
  }

  /** While recording from a bound start `t0`, a run whose edits have
      distinct clock readings stores every edit's full snapshot under
      `at - t0`. With `EditsFrame`, nothing else among the code entries
      changes; when the readings also increase, `EditOrder` gives that the
      offsets follow the order the edits were made in. */
  lemma CapturedEdits(s: Session, db: Db, evs: seq<Event>)
    requires s.recording && StartBound(s)
    requires EditsDistinct(evs)
    ensures var r := Play(s, db, evs);
            var t0 := s.start.value;
            forall i :: 0 <= i < |evs| && evs[i].EditAt? ==>
              evs[i].at - t0 in r.db.code && r.db.code[evs[i].at - t0] == Snapshot(evs[i].code, evs[i].history)
  {
    var r := Play(s, db, evs);
    RunEditsStored(s, db, evs);
    forall i | 0 <= i < |evs| && evs[i].EditAt?
      ensures evs[i].at - s.start.value in r.db.code && r.db.code[evs[i].at - s.start.value] == Snapshot(evs[i].code, evs[i].history)
    {
      EditsStoredEach(evs, s.start.value, r.db.code, i);
    }
  }

  /** A leading edit is stored under its offset and, its offset not being
      reused by a later edit, is still there at the end of the run. */
  lemma FirstEditStored(s: Session, db: Db, evs: seq<Event>)
    requires s.recording && StartBound(s)
    requires |evs| > 0 && evs[0].EditAt? && EditsDistinct(evs)
    ensures var r := Play(s, db, evs);
            var o := evs[0].at - s.start.value;
            o in r.db.code && r.db.code[o] == Snapshot(evs[0].code, evs[0].history)
  {
    var t0 := s.start.value;
    var st := Apply(s, db, evs[0]);
    ApplyWhileRecording(s, db, evs[0]);
    FirstEditFresh(evs, t0);
    EditsFrame(st.session, st.db, evs[1..], evs[0].at - t0);
  }

  /** While recording from a bound start `t0`, a run leaves every
      select entry whose offset is not `at - t0` for one of its cursor moves as
      it was. */
  lemma {:induction false} MovesFrame(s: Session, db: Db, evs: seq<Event>, o: int)
    requires s.recording && StartBound(s)
    requires o !in MoveOffsets(evs, s.start.value)
    ensures var r := Play(s, db, evs);
            && (o in r.db.select <==> o in db.select)
            && (o in db.select ==> r.db.select[o] == db.select[o])
    decreases |evs|
  {
    if |evs| > 0 {
      var st := Apply(s, db, evs[0]);
      ApplyWhileRecording(s, db, evs[0]);
      MovesFrame(st.session, st.db, evs[1..], o);
    }
  }

  /** Every move of the run is stored in `select` under its offset from `t0`. */
  predicate MovesStored(evs: seq<Event>, t0: int, select: map<int, string>)
    decreases |evs|
  {
    |evs| == 0 ||
    ((evs[0].MoveAt? ==> evs[0].at - t0 in select && select[evs[0].at - t0] == Selection.Serialize(evs[0].sel))
     && MovesStored(evs[1..], t0, select))
  }

  /** `MovesStored` holds of each move of the run. */
  lemma {:induction false} MovesStoredEach(evs: seq<Event>, t0: int, select: map<int, string>, i: nat)
    requires MovesStored(evs, t0, select) && i < |evs| && evs[i].MoveAt?
    ensures evs[i].at - t0 in select && select[evs[i].at - t0] == Selection.Serialize(evs[i].sel)
    decreases i
  {
    if i > 0 {
      assert evs[1..][i - 1] == evs[i];
      MovesStoredEach(evs[1..], t0, select, i - 1);
    }
  }

  /** Run by run: each leading move is stored and survives the rest. */
  lemma {:induction false} RunMovesStored(s: Session, db: Db, evs: seq<Event>)
    requires s.recording && StartBound(s)
    requires MovesDistinct(evs)
    ensures MovesStored(evs, s.start.value, Play(s, db, evs).db.select)
    decreases |evs|
  {
    if |evs| > 0 {
      var st := Apply(s, db, evs[0]);
      var rest := evs[1..];
      ApplyWhileRecording(s, db, evs[0]);
      assert MovesDistinct(rest);
      RunMovesStored(st.session, st.db, rest);
      assert Play(s, db, evs) == Play(st.session, st.db, rest);
      if evs[0].MoveAt? {
        FirstMoveStored(s, db, evs);
      }
    }
  }

  /** While recording from a bound start `t0`, a run whose cursor moves have
      distinct clock readings stores every move's selection text
      under `at - t0`. */
  lemma CapturedMoves(s: Session, db: Db, evs: seq<Event>)
    requires s.recording && StartBound(s)
    requires MovesDistinct(evs)
    ensures var r := Play(s, db, evs);
            var t0 := s.start.value;
            forall i :: 0 <= i < |evs| && evs[i].MoveAt? ==>
              evs[i].at - t0 in r.db.select && r.db.select[evs[i].at - t0] == Selection.Serialize(evs[i].sel)
  {
    var r := Play(s, db, evs);
    RunMovesStored(s, db, evs);
    forall i | 0 <= i < |evs| && evs[i].MoveAt?
      ensures evs[i].at - s.start.value in r.db.select && r.db.select[evs[i].at - s.start.value] == Selection.Serialize(evs[i].sel)
    {
      MovesStoredEach(evs, s.start.value, r.db.select, i);
    }
  }

  /** Whether or not a code entry at `o` is an edit's offset, a run that
      leaves it out of its edit offsets leaves the entry as it was. */
  lemma EditsFrameAt(s: Session, db: Db, evs: seq<Event>, o: int)
    requires s.recording && StartBound(s)
    ensures o !in EditOffsets(evs, s.start.value) ==>
              var r := Play(s, db, evs);
              (o in r.db.code <==> o in db.code)
  {
    if o !in EditOffsets(evs, s.start.value) {
      EditsFrame(s, db, evs, o);
    }
  }

  /** The same for select entries and cursor moves. */
  lemma MovesFrameAt(s: Session, db: Db, evs: seq<Event>, o: int)
    requires s.recording && StartBound(s)
    ensures o !in MoveOffsets(evs, s.start.value) ==>
              var r := Play(s, db, evs);
              (o in r.db.select <==> o in db.select)
  {
    if o !in MoveOffsets(evs, s.start.value) {
      MovesFrame(s, db, evs, o);
    }
  }

  /** `onRecord` at a truthy clock reading `t0`, then a run whose readings
      never go backwards and start no earlier than `t0`: every code or
      select entry the run adds lies at a non-negative offset. */
  lemma RecordedOffsetsNonNegative(s: Session, db: Db, t0: int, uid: string, history: string, evs: seq<Event>)
    requires s.recorder && t0 != 0
    requires |evs| > 0 && NonDecreasing(evs) && t0 <= evs[0].at
    ensures var rec := OnRecord(s, db, t0, uid, history);
            var r := Play(rec.session, rec.db, evs);
            && (forall o :: o in r.db.code && o !in rec.db.code ==> o >= 0)
            && (forall o :: o in r.db.select && o !in rec.db.select ==> o >= 0)
  {
    var rec := OnRecord(s, db, t0, uid, history);
    var r := Play(rec.session, rec.db, evs);
    OffsetsFromFirst(evs, t0);
    forall o | o in r.db.code && o !in rec.db.code
      ensures o >= 0
    {
      EditsFrameAt(rec.session, rec.db, evs, o);
    }
    forall o | o in r.db.select && o !in rec.db.select
      ensures o >= 0
    {
      MovesFrameAt(rec.session, rec.db, evs, o);
    }
  }

  /** A keystroke fires an edit and a cursor move at the same clock
      reading: both are stored, the snapshot among the code entries and the
      selection among the select entries, under the same offset. */
  lemma KeystrokeStoresBoth(s: Session, db: Db, t: int, code: string, history: string, sel: Selection.Range)
    requires s.recording && StartBound(s)
    ensures var r := Play(s, db, [EditAt(t, code, history), MoveAt(t, sel)]);
            var o := t - s.start.value;
            && o in r.db.code && r.db.code[o] == Snapshot(code, history)
            && o in r.db.select && r.db.select[o] == Selection.Serialize(sel)
  {
    var evs := [EditAt(t, code, history), MoveAt(t, sel)];
    assert evs[1..] == [MoveAt(t, sel)];
    assert evs[1..][1..] == [];
    assert EditsApart(t, evs[1..]);
    assert EditsDistinct(evs[1..]);
    assert MovesDistinct(evs[1..]);
    CapturedEdits(s, db, evs);
    CapturedMoves(s, db, evs);
  }

  /** A leading move is stored under its offset and, its offset not being
      reused by a later move, is still there at the end of the run. */
  lemma FirstMoveStored(s: Session, db: Db, evs: seq<Event>)
    requires s.recording && StartBound(s)
    requires |evs| > 0 && evs[0].MoveAt? && MovesDistinct(evs)
    ensures var r := Play(s, db, evs);
            var o := evs[0].at - s.start.value;
            o in r.db.select && r.db.select[o] == Selection.Serialize(evs[0].sel)
  {
    var t0 := s.start.value;
    var st := Apply(s, db, evs[0]);
    ApplyWhileRecording(s, db, evs[0]);
    FirstMoveFresh(evs, t0);
    MovesFrame(st.session, st.db, evs[1..], evs[0].at - t0);
  }

  /** The last edit of a run, if it has one. */
  function LastEdit(evs: seq<Event>): Option<Snapshot>
    decreases |evs|
  {
    if |evs| == 0 then None
    else
      var later := LastEdit(evs[1..]);
      if later.Some? then later
      else if evs[0].EditAt? then Some(Snapshot(evs[0].code, evs[0].history))
      else None
  }

  /** Before recording, a run of edits and moves only ever rewrites the
      single `initial` snapshot, which ends up holding the last edit (or
      stays as it was when there was none); cursor moves are dropped, no
      offset-keyed entry appears and the start instant is not touched. */
  lemma {:induction false} DraftsBeforeRecording(s: Session, db: Db, evs: seq<Event>)
    requires !s.recording
    ensures var r := Play(s, db, evs);
            && !r.session.recording && r.session.start == s.start
            && r.db.initial == (if LastEdit(evs).Some? then LastEdit(evs) else db.initial)
            && r.db == db.(initial := r.db.initial)
    decreases |evs|
  {
    if |evs| > 0 {
      var st := Apply(s, db, evs[0]);
      DraftsBeforeRecording(st.session, st.db, evs[1..]);
    }
  }
}

=== FILE: client.dfy ===
/** One server-side connection: it binds a session id, keeps that session's
    working directory under the workspace root, runs submitted code there
    with the Python interpreter, relays the interpreter's output, and
    removes the directory on disconnect when the connection was opened for
    replay.

    The file system is a set of directories and a map from file paths to
    contents. Socket emits are collected in order, and spawning the
    interpreter is recorded as a `Proc` event. What the interpreter prints
    is an input: the chunks it writes, in order, each tagged with its
    stream. */
module Client {
  import opened Wrappers

  /** The connection's fields. `ws` is the workspace root; `id` is
      undefined until `record` or `replay` binds it; `cleanup` is undefined
      (false) until `replay` sets it. */
  datatype Conn = Conn(ws: string, id: Option<string>, cleanup: bool)

  /** A new connection. */
  function Connect(ws: string): Conn {
    Conn(ws, None, false)
  }

  /** How a template literal prints the id: an undefined id prints as
      `undefined`. */
  function IdText(id: Option<string>): string {
    if id.Some? then id.value else "undefined"
  }

  /** The session a path names as a directory directly under `ws`, if any. */
  function SessionOf(ws: string, path: string): Option<string> {
    if ws + "/" <= path then Some(path[|ws| + 1..]) else None
  }

  /** The `dir` getter, `${ws}/${id}`: a directory directly under the
      workspace that names exactly the currently bound id. */
  function Dir(c: Conn): (r: string)
    ensures SessionOf(c.ws, r) == Some(IdText(c.id))
  {
    var r := c.ws + "/" + IdText(c.id);
    assert r == (c.ws + "/") + IdText(c.id);
    r
  }

  /** Different ids get different directories. */
  lemma DirInjective(c: Conn, d: Conn)
    requires c.ws == d.ws && c.id.Some? && d.id.Some?
    requires Dir(c) == Dir(d)
    ensures c.id == d.id
  {
  }

  datatype Fs = Fs(dirs: set<string>, files: map<string, string>)

  /** `p` is `d` itself or lies somewhere below it. */
  predicate Under(p: string, d: string) {
    p == d || d + "/" <= p
  }

  /** `mkdirp`: the directory exists afterwards; nothing else changes. */
  function Mkdirp(fs: Fs, d: string): (r: Fs)
    ensures d in r.dirs
    ensures forall p :: p != d ==> (p in r.dirs <==> p in fs.dirs)
    ensures r.files == fs.files
  {
    fs.(dirs := fs.dirs + {d})
  }

  /** `rm` of a directory, recursively: every directory and file under `d`
      is gone, and everything else is kept with its contents. */
  function Rm(fs: Fs, d: string): (r: Fs)
    ensures forall p :: p in r.dirs <==> p in fs.dirs && !Under(p, d)
    ensures forall p :: p in r.files <==> p in fs.files && !Under(p, d)
    ensures forall p :: p in r.files ==> r.files[p] == fs.files[p]
  {
    Fs(set p | p in fs.dirs && !Under(p, d),
       map p | p in fs.files && !Under(p, d) :: fs.files[p])
  }

  /** The name the submitted program is written under. */
  const Entry: string := "main.py"

  /** What the connection sends back on its socket. */
  datatype Emit = RecordAck | Out(text: string) | Err(text: string)

  /** A piece of the interpreter's output, from stdout or stderr. */
  datatype Chunk = Stdout(text: string) | Stderr(text: string)

  /** A spawned process: command, arguments and working directory. */
  datatype Proc = Proc(command: string, args: seq<string>, cwd: string)

  /** Everything one handler leaves behind. */
  datatype Reaction = Reaction(conn: Conn, fs: Fs, sent: seq<Emit>, spawned: seq<Proc>)

  /** The output callbacks of `spawn`: a stdout chunk is emitted on `out`,
      a stderr chunk on `err`, one emit per chunk, in order. */
  function Relay(output: seq<Chunk>): (r: seq<Emit>)
    ensures |r| == |output|
    ensures forall i :: 0 <= i < |output| ==>
              (output[i].Stdout? ==> r[i] == Out(output[i].text)) &&
              (output[i].Stderr? ==> r[i] == Err(output[i].text))
    decreases |output|
  {
    if |output| == 0 then []
    else
      var head := if output[0].Stdout? then Out(output[0].text) else Err(output[0].text);
      [head] + Relay(output[1..])
  }

  /** The texts emitted on `out`, in order. */
  function OutTexts(sent: seq<Emit>): seq<string>
    decreases |sent|
  {
    if |sent| == 0 then []
    else (if sent[0].Out? then [sent[0].text] else []) + OutTexts(sent[1..])
  }

  /** The texts emitted on `err`, in order. */
  function ErrTexts(sent: seq<Emit>): seq<string>
    decreases |sent|
  {
    if |sent| == 0 then []
    else (if sent[0].Err? then [sent[0].text] else []) + ErrTexts(sent[1..])
  }

  /** The texts the interpreter wrote to stdout, in order. */
  function StdoutTexts(output: seq<Chunk>): seq<string>
    decreases |output|
  {
    if |output| == 0 then []
    else (if output[0].Stdout? then [output[0].text] else []) + StdoutTexts(output[1..])
  }

  /** The texts the interpreter wrote to stderr, in order. */
  function StderrTexts(output: seq<Chunk>): seq<string>
    decreases |output|
  {
    if |output| == 0 then []
    else (if output[0].Stderr? then [output[0].text] else []) + StderrTexts(output[1..])
  }

  /** The `out` channel carries exactly the stdout chunks and the `err`
      channel exactly the stderr chunks, each in the order written. */
  lemma {:induction false} RelaySeparatesChannels(output: seq<Chunk>)
    ensures OutTexts(Relay(output)) == StdoutTexts(output)
    ensures ErrTexts(Relay(output)) == StderrTexts(output)
    decreases |output|
  {
    if |output| > 0 {
      var r := Relay(output);
      assert r[1..] == Relay(output[1..]);
      RelaySeparatesChannels(output[1..]);
    }
  }

  /** `record(id)`: bind the id, make sure its directory exists, and
      acknowledge on `record`. `cleanup` is left as it was. */
  function OnRecord(c: Conn, fs: Fs, id: string): (r: Reaction)
    ensures r.conn == c.(id := Some(id))
    ensures Dir(r.conn) == c.ws + "/" + id
    ensures Dir(r.conn) in r.fs.dirs
    ensures forall p :: p != Dir(r.conn) ==> (p in r.fs.dirs <==> p in fs.dirs)
    ensures r.fs.files == fs.files
    ensures r.sent == [RecordAck] && r.spawned == []
  {
    var bound := c.(id := Some(id));
    Reaction(bound, Mkdirp(fs, Dir(bound)), [RecordAck], [])
  }

  /** `replay(id)`: bind the id, mark the connection for cleanup, and make
      sure the directory exists. Nothing is emitted. */
  function OnReplay(c: Conn, fs: Fs, id: string): (r: Reaction)
    ensures r.conn == c.(id := Some(id), cleanup := true)
    ensures Dir(r.conn) == c.ws + "/" + id
    ensures Dir(r.conn) in r.fs.dirs
    ensures forall p :: p != Dir(r.conn) ==> (p in r.fs.dirs <==> p in fs.dirs)
    ensures r.fs.files == fs.files
    ensures r.sent == [] && r.spawned == []
  {
    var bound := c.(id := Some(id), cleanup := true);
    Reaction(bound, Mkdirp(fs, Dir(bound)), [], [])
  }

  /** `compile(code)`: write `code` to `dir/main.py`, then run
      `python main.py` with `dir` as working directory and relay its output.
      When `dir` does not exist the write fails and nothing is spawned. */
  function OnCompile(c: Conn, fs: Fs, code: string, output: seq<Chunk>): (r: Reaction)
    ensures r.conn == c && r.fs.dirs == fs.dirs
    ensures Dir(c) in fs.dirs ==>
              && Dir(c) + "/" + Entry in r.fs.files
              && r.fs.files[Dir(c) + "/" + Entry] == code
              && (forall p :: p != Dir(c) + "/" + Entry ==>
                    (p in r.fs.files <==> p in fs.files) && (p in fs.files ==> r.fs.files[p] == fs.files[p]))
              && r.spawned == [Proc("python", [Entry], Dir(c))]
              && |r.sent| == |output| && RecordAck !in r.sent
              && OutTexts(r.sent) == StdoutTexts(output)
              && ErrTexts(r.sent) == StderrTexts(output)
    ensures Dir(c) !in fs.dirs ==> r == Reaction(c, fs, [], [])
  {
    var d := Dir(c);
    if d !in fs.dirs then Reaction(c, fs, [], [])
    else
      var written := fs.(files := fs.files[d + "/" + Entry := code]);
      RelaySeparatesChannels(output);
      Reaction(c, written, Relay(output), [Proc("python", [Entry], d)])
  }

  /** `disconnect`: a cleanup-marked connection removes its directory and
      everything in it; otherwise the file system is left alone. */
  function OnDisconnect(c: Conn, fs: Fs): (r: Reaction)
    ensures r.conn == c && r.sent == [] && r.spawned == []
    ensures c.cleanup ==>
              && Dir(c) !in r.fs.dirs
              && (forall p :: p in fs.files && Under(p, Dir(c)) ==> p !in r.fs.files)
              && (forall p :: p in fs.dirs && !Under(p, Dir(c)) ==> p in r.fs.dirs)
              && (forall p :: p in fs.files && !Under(p, Dir(c)) ==>
                    p in r.fs.files && r.fs.files[p] == fs.files[p])
    ensures !c.cleanup ==> r.fs == fs
  {
    if c.cleanup then Reaction(c, Rm(fs, Dir(c)), [], [])
    else Reaction(c, fs, [], [])
  }

  /** A message arriving on the socket. */
  datatype Message =
    | RecordMsg(id: string)
    | ReplayMsg(id: string)
    | CompileMsg(code: string, output: seq<Chunk>)
    | DisconnectMsg

  function Handle(c: Conn, fs: Fs, m: Message): Reaction {
    match m
    case RecordMsg(id) => OnRecord(c, fs, id)
    case ReplayMsg(id) => OnReplay(c, fs, id)
    case CompileMsg(code, output) => OnCompile(c, fs, code, output)
    case DisconnectMsg => OnDisconnect(c, fs)
  }

  /** Messages handled one after another; the emits and spawns accumulate
      in order. */
  function Serve(c: Conn, fs: Fs, msgs: seq<Message>): Reaction
    decreases |msgs|
  {
    if |msgs| == 0 then Reaction(c, fs, [], [])
    else
      var first := Handle(c, fs, msgs[0]);
      var rest := Serve(first.conn, first.fs, msgs[1..]);
      Reaction(rest.conn, rest.fs, first.sent + rest.sent, first.spawned + rest.spawned)
  }

  /** Some message of the sequence is a `replay`. */
  predicate Replayed(msgs: seq<Message>) {
    exists i :: 0 <= i < |msgs| && msgs[i].ReplayMsg?
  }

  /** Nothing resets `cleanup`: after any sequence of messages the
      connection is cleanup-marked exactly when it was before or some
      message was a `replay`. */
  lemma {:induction false} CleanupIsSticky(c: Conn, fs: Fs, msgs: seq<Message>)
    ensures Serve(c, fs, msgs).conn.cleanup <==> c.cleanup || Replayed(msgs)
    decreases |msgs|
  {
    if |msgs| > 0 {
      var first := Handle(c, fs, msgs[0]);
      CleanupIsSticky(first.conn, first.fs, msgs[1..]);
      if Replayed(msgs[1..]) {
        var i :| 0 <= i < |msgs[1..]| && msgs[1..][i].ReplayMsg?;
        assert msgs[i + 1].ReplayMsg?;
      }
      if Replayed(msgs) && !msgs[0].ReplayMsg? {
        var i :| 0 <= i < |msgs| && msgs[i].ReplayMsg?;
        assert msgs[1..][i - 1].ReplayMsg?;
      }
    }
  }

  /** A recording owner's connection: after `record(id)`, a compile and the
      disconnect, the session directory and the program written into it are
      still there. */
  lemma RecordedSessionSurvives(ws: string, fs: Fs, id: string, code: string, output: seq<Chunk>)
    ensures var r := Serve(Connect(ws), fs, [RecordMsg(id), CompileMsg(code, output), DisconnectMsg]);
            && ws + "/" + id in r.fs.dirs
            && ws + "/" + id + "/" + Entry in r.fs.files
            && r.fs.files[ws + "/" + id + "/" + Entry] == code
            && r.sent[0] == RecordAck
            && r.spawned == [Proc("python", [Entry], ws + "/" + id)]
  {
    var c1 := OnRecord(Connect(ws), fs, id);
    var c2 := OnCompile(c1.conn, c1.fs, code, output);
    var c3 := OnDisconnect(c2.conn, c2.fs);
    assert Serve(c2.conn, c2.fs, [DisconnectMsg]) == Reaction(c3.conn, c3.fs, [], []);
    assert [RecordMsg(id), CompileMsg(code, output), DisconnectMsg][1..] == [CompileMsg(code, output), DisconnectMsg];
    assert [CompileMsg(code, output), DisconnectMsg][1..] == [DisconnectMsg];
  }

  /** A replay viewer's connection: after `replay(id)` and the disconnect,
      the session directory and everything under it are gone. */
  lemma ReplaySessionRemoved(ws: string, fs: Fs, id: string)
    ensures var r := Serve(Connect(ws), fs, [ReplayMsg(id), DisconnectMsg]);
            && ws + "/" + id !in r.fs.dirs
            && (forall p :: p in r.fs.files ==> !Under(p, ws + "/" + id))
            && r.sent == []
  {
    var c1 := OnReplay(Connect(ws), fs, id);
    var c2 := OnDisconnect(c1.conn, c1.fs);
    assert Serve(c1.conn, c1.fs, [DisconnectMsg]) == Reaction(c2.conn, c2.fs, [], []);
    assert [ReplayMsg(id), DisconnectMsg][1..] == [DisconnectMsg];
  }

  /** An id that names a single directory level of its own: no `/`, and
      not one of the names `""`, `.` and `..`, which the file system resolves
      to the workspace itself or its parent. */
  predicate Plain(id: string) {
    '/' !in id && id != "" && id != "." && id != ".."
  }

  /** With plain ids, a path lies under at most one session's directory:
      the working directory is the unit of isolation. */
  lemma SessionsDisjoint(ws: string, a: string, b: string, p: string)
    requires Plain(a) && Plain(b)
    requires Under(p, ws + "/" + a) && Under(p, ws + "/" + b)
    ensures a == b
  {
    SegmentUnder(ws, a, p);
    SegmentUnder(ws, b, p);
  }

  /** The first path segment of `t`: everything before its first `/`. */
  function Segment(t: string): (r: string)
    ensures r <= t && '/' !in r
    decreases |t|
  {
    if |t| == 0 || t[0] == '/' then [] else [t[0]] + Segment(t[1..])
  }

  lemma {:induction false} SegmentOfPlain(x: string, t: string)
    requires '/' !in x
    requires t == x || x + "/" <= t
    ensures Segment(t) == x
    decreases |x|
  {
    if |x| > 0 {
      assert t[0] == x[0];
      assert x[1..] + "/" <= t[1..] || t[1..] == x[1..] by {
        if t != x {
          assert (x + "/")[1..] == x[1..] + "/";
        }
      }
      SegmentOfPlain(x[1..], t[1..]);
      assert x == [x[0]] + x[1..];
    } else if t != x {
      assert t[0] == '/';
    }
  }

  /** A path under a plain session's directory names that session in its
      first segment after the workspace root. */
  lemma SegmentUnder(ws: string, x: string, p: string)
    requires '/' !in x && Under(p, ws + "/" + x)
    ensures |ws| + 1 <= |p| && Segment(p[|ws| + 1..]) == x
  {
    var n := |ws| + 1;
    var d := ws + "/" + x;
    assert d[n..] == x;
    if p == d {
      SegmentOfPlain(x, p[n..]);
    } else {
      assert (d + "/")[n..] == x + "/";
      assert x + "/" <= p[n..];
      SegmentOfPlain(x, p[n..]);
    }
  }

  /** A replay viewer leaving never touches another session's files, as long
      as session ids are plain. */
  lemma DisconnectSparesOtherSessions(c: Conn, fs: Fs, other: string, p: string)
    requires c.id.Some? && Plain(c.id.value) && Plain(other) && other != c.id.value
    requires p in fs.files && Under(p, c.ws + "/" + other)
    ensures var r := OnDisconnect(c, fs);
            p in r.fs.files && r.fs.files[p] == fs.files[p]
  {
    if Under(p, Dir(c)) {
      SessionsDisjoint(c.ws, c.id.value, other, p);
    }
  }

  /** Ids are not checked: an id containing `/` names a directory inside
      another session's, so a replay viewer of `x` leaving removes the
      program of session `x/y`. */
  lemma NestedIdBreaksIsolation(fs: Fs)
    requires "ws/x/y/main.py" in fs.files
    ensures var r := Serve(Connect("ws"), fs, [ReplayMsg("x"), DisconnectMsg]);
            "ws/x/y/main.py" !in r.fs.files
  {
    var c1 := OnReplay(Connect("ws"), fs, "x");
    assert Dir(c1.conn) == "ws/x";
    assert "ws/x/" <= "ws/x/y/main.py";
    assert [ReplayMsg("x"), DisconnectMsg][1..] == [DisconnectMsg];
  }

  /** The `/`-separated segments of a path. */
  function Segments(p: string): seq<string>
    decreases |p|
  {
    var head := Segment(p);
    if |head| == |p| then [p] else [head] + Segments(p[|head| + 1..])
  }

  /** How the file system resolves a path's segments: empty and `.`
      segments stay put and `..` climbs one level. */
  function Resolve(segs: seq<string>): seq<string>
    decreases |segs|
  {
    if |segs| == 0 then []
    else
      var up := Resolve(segs[..|segs| - 1]);
      var last := segs[|segs| - 1];
      if last == "" || last == "." then up
      else if last == ".." then (if |up| > 0 then up[..|up| - 1] else [])
      else up + [last]
  }

  /** The ids `""`, `.` and `..` are not plain, and their directories
      resolve to the workspace root or its parent, which hold every other
      session's program. A real recursive removal of such a directory
      deletes session `b`'s `main.py`; the string prefix test `Under`, on
      which `Rm` is built, does not see it. */
  lemma DotIdsReachEverySession(ws: string, id: string, b: string)
    requires Plain(ws) && Plain(b)
    requires id == "" || id == "." || id == ".."
    ensures !Plain(id)
    ensures Resolve(Segments(Dir(Conn(ws, Some(id), true))))
              <= Resolve(Segments(ws + "/" + b + "/" + Entry))
    ensures !Under(ws + "/" + b + "/" + Entry, Dir(Conn(ws, Some(id), true)))
  {
    DotDirResolves(ws, id);
    ProgramResolves(ws, b);
    var q := ws + "/" + b + "/" + Entry;
    assert Under(q, ws + "/" + b) by {
      assert q == (ws + "/" + b) + "/" + Entry;
    }
    SegmentUnder(ws, b, q);
    SegmentIfUnder(ws, id, q);
  }

  /** The directory of a dot id resolves to the workspace root, or to its
      parent for `..`. */
  lemma DotDirResolves(ws: string, id: string)
    requires Plain(ws)
    requires id == "" || id == "." || id == ".."
    ensures Resolve(Segments(Dir(Conn(ws, Some(id), true)))) == (if id == ".." then [] else [ws])
  {
    var d := Dir(Conn(ws, Some(id), true));
    SegmentsOfPlain(id);
    SegmentsAfter(ws, id);
    assert Segments(d) == [ws, id];
    assert Resolve([ws]) == [ws] by {
      assert [ws][..0] == [];
    }
    assert [ws, id][..1] == [ws];
  }

  /** Session `b`'s program resolves to the segments `ws`, `b`, `main.py`. */
  lemma ProgramResolves(ws: string, b: string)
    requires Plain(ws) && Plain(b)
    ensures Resolve(Segments(ws + "/" + b + "/" + Entry)) == [ws, b, Entry]
  {
    ProgramSegments(ws, b);
    var one: seq<string> := [ws];
    var two := one + [b];
    assert Resolve(one) == one by {
      assert one[..0] == [];
    }
    assert Resolve(two) == two by {
      assert two[..1] == one;
    }
    assert [ws, b, Entry][..2] == two;
  }

  lemma ProgramSegments(ws: string, b: string)
    requires '/' !in ws && '/' !in b
    ensures Segments(ws + "/" + b + "/" + Entry) == [ws, b, Entry]
  {
    var q := ws + "/" + b + "/" + Entry;
    assert q == ws + "/" + (b + "/" + Entry);
    SegmentsOfPlain(Entry);
    SegmentsAfter(b, Entry);
    SegmentsAfter(ws, b + "/" + Entry);
  }

  /** Only a directory named by the path's first segment below `ws` can
      hold the path. */
  lemma SegmentIfUnder(ws: string, x: string, p: string)
    requires '/' !in x
    ensures Under(p, ws + "/" + x) ==> |ws| + 1 <= |p| && Segment(p[|ws| + 1..]) == x
  {
    if Under(p, ws + "/" + x) {
      SegmentUnder(ws, x, p);
    }
  }

  /** A path without `/` is a single segment. */
  lemma SegmentsOfPlain(x: string)
    requires '/' !in x
    ensures Segments(x) == [x]
  {
    SegmentOfPlain(x, x);
  }

  /** A leading directory name without `/` is the path's first segment. */
  lemma SegmentsAfter(x: string, rest: string)
    requires '/' !in x
    ensures Segments(x + "/" + rest) == [x] + Segments(rest)
  {
    var p := x + "/" + rest;
    SegmentOfPlain(x, p);
    assert p[|x| + 1..] == rest;
  }
}

=== FILE: record.dfy ===
/** The recording page: the component state, the handlers that turn user
    actions into store writes, and the guards its rendering puts on the
    Record/Stop button, the name field and the editor.

    Every handler is a pure function of the component state, the store and
    the clock reading `now` (the instant the handler samples the clock).
    The CodeMirror edit history is passed in as opaque text, and the audio
    recorder is reduced to the calls made on it. */
module Record {
  import opened Wrappers
  import opened Store
  import Selection

  /** The JavaScript value held in `done`. `init` copies the stored
      `recording` flag (a boolean) into it; `onStop` stores a number of
      milliseconds, which is `NaN` when `start` is undefined. */
  datatype Done = Unset | Flag(on: bool) | Millis(ms: int) | NaN

  /** JavaScript truthiness of `done`: `false`, `0`, `NaN` and `undefined`
      are falsy. */
  predicate Truthy(d: Done) {
    (d.Flag? && d.on) || (d.Millis? && d.ms != 0)
  }

  /** The component state. `recorder` records only whether an audio
      recorder object exists; an absent boolean is `false`. */
  datatype Session = Session(
    name: Option<string>,
    code: Option<string>,
    recording: bool,
    done: Done,
    start: Option<int>,
    recorder: bool,
    enabled: bool)

  /** The state the component starts from: every field undefined. */
  const Fresh: Session := Session(None, None, false, Unset, None, false, false)

  /** The calls the handlers make on the audio recorder. */
  datatype AudioCall = ClearBuffer | StartCapture | StopCapture

  /** A handler that cannot fail: the new state and the new store. */
  datatype Step = Step(session: Session, db: Db)

  /** A handler that can fail midway: `Threw` carries whatever state and
      store writes happened before the exception. The page's error handler
      is taken to leave that state as it is. */
  datatype Outcome =
    | Completed(session: Session, db: Db, audio: seq<AudioCall>)
    | Threw(session: Session, db: Db, audio: seq<AudioCall>)

  /** `this.state.start` is truthy: present and not zero. */
  predicate StartBound(s: Session) {
    s.start.Some? && s.start.value != 0
  }

  /** The lazy clock binding of `onCode` and `onCursor`: an unset start is
      bound to `now`, a set one is kept. */
  function BindStart(s: Session, now: int): (s': Session)
    ensures s'.start.Some?
    ensures s' == s.(start := s'.start)
    ensures StartBound(s) ==> s'.start == s.start
    ensures !StartBound(s) ==> s'.start == Some(now)
  {
    if StartBound(s) then s else s.(start := Some(now))
  }

  /** `this.state.code || ''`. */
  function CodeText(s: Session): string {
    if s.code.Some? then s.code.value else ""
  }

  /** The state while `onRecord` or `onStop` is in flight. */
  function Busy(s: Session): (s': Session)
    ensures !s'.enabled
  {
    s.(enabled := false)
  }

  /** `init`: load the stored session, then acquire the microphone.
      `granted` says whether the device request succeeds; when it is
      refused the promise rejects after the first state update. */
  function Init(s: Session, db: Db, granted: bool): (r: Outcome)
    ensures r.db == db && r.audio == []
    ensures r.session.code == Some(if db.initial.Some? then db.initial.value.code else "")
    ensures r.session.name == db.name
    ensures Truthy(r.session.done) <==> db.recording == Some(true)
    ensures r.session.recording == s.recording && r.session.start == s.start
    ensures granted <==> r.Completed?
    ensures granted ==> r.session.recorder && r.session.enabled
    ensures !granted ==> r.session.recorder == s.recorder && r.session.enabled == s.enabled
  {
    var loaded := s.(
      done := if db.recording.Some? then Flag(db.recording.value) else Unset,
      name := db.name,
      code := Some(if db.initial.Some? then db.initial.value.code else ""));
    if granted then Completed(loaded.(recorder := true, enabled := true), db, [])
    else Threw(loaded, db, [])
  }

  /** `onName`: the state and the stored name both take the new name. */
  function OnName(s: Session, db: Db, name: string): (r: Step)
    ensures r.session.name == Some(name) && r.db.name == Some(name)
    ensures r.session == s.(name := r.session.name)
    ensures r.db == db.(name := r.db.name)
  {
    Step(s.(name := Some(name)), db.(name := Some(name)))
  }

  /** `onCode`: before recording the edit overwrites the `initial`
      snapshot; while recording it is written under `code/{now - start}`,
      binding `start` first if it is unset. */
  function OnCode(s: Session, db: Db, now: int, code: string, history: string): (r: Step)
    ensures r.session.code == Some(code)
    ensures r.session == s.(code := r.session.code, start := r.session.start)
    ensures StartBound(s) ==> r.session.start == s.start
    ensures !s.recording ==>
              && r.session.start == s.start
              && r.db.initial == Some(Snapshot(code, history))
              && r.db == db.(initial := r.db.initial)
    ensures s.recording ==>
              && r.session.start.Some?
              && (!StartBound(s) ==> r.session.start == Some(now))
              && PointWrite(db.code, r.db.code, now - r.session.start.value, Snapshot(code, history))
              && r.db == db.(code := r.db.code)
  {
    var s1 := s.(code := Some(code));
    var send := Snapshot(code, history);
    if s1.recording then
      var s2 := BindStart(s1, now);
      Step(s2, db.(code := db.code[now - s2.start.value := send]))
    else
      Step(s1, db.(initial := Some(send)))
  }

  /** `onCursor`: dropped unless recording; while recording the selection
      is written, as JSON text, under `select/{now - start}`. */
  function OnCursor(s: Session, db: Db, now: int, sel: Selection.Range): (r: Step)
    ensures !s.recording ==> r == Step(s, db)
    ensures r.session == s.(start := r.session.start)
    ensures StartBound(s) ==> r.session.start == s.start
    ensures s.recording ==>
              && r.session.start.Some?
              && (!StartBound(s) ==> r.session.start == Some(now))
              && var offset := now - r.session.start.value;
              && PointWrite(db.select, r.db.select, offset, Selection.Serialize(sel))
              && r.db == db.(select := r.db.select)
  {
    if !s.recording then Step(s, db)
    else
      var s1 := BindStart(s, now);
      Step(s1, db.(select := db.select[now - s1.start.value := Selection.Serialize(sel)]))
  }

  /** The text a cursor move stores decodes to exactly the selection's
      anchor and head. */
  lemma CursorPayloadDecodes(s: Session, db: Db, now: int, sel: Selection.Range)
    requires s.recording
    ensures var r := OnCursor(s, db, now, sel);
            && r.session.start.Some?
            && Selection.Parse(r.db.select[now - r.session.start.value]) == Some(sel)
  {
    Selection.ParseSerialize(sel);
  }

  /** `onRecord`: writes the owner and the `initial` snapshot, restarts the
      audio capture, then enters recording with `start = now` and sets the
      stored flag. Without a recorder, `recorder.clear()` throws after the
      two writes, leaving the page disabled. */
  function OnRecord(s: Session, db: Db, now: int, uid: string, history: string): (r: Outcome)
    ensures r.db.owner == Some(uid)
    ensures r.db.initial == Some(Snapshot(CodeText(s), history))
    ensures r.db == db.(owner := r.db.owner, initial := r.db.initial, recording := r.db.recording)
    ensures s.recorder <==> r.Completed?
    ensures s.recorder ==>
              && r.session == s.(recording := true, start := Some(now), enabled := true)
              && r.db.recording == Some(true)
              && r.audio == [ClearBuffer, StartCapture]
    ensures !s.recorder ==>
              && r.session == Busy(s)
              && r.db.recording == db.recording
              && r.audio == []
  {
    var busy := Busy(s);
    var db1 := db.(owner := Some(uid), initial := Some(Snapshot(CodeText(busy), history)));
    if !busy.recorder then Threw(busy, db1, [])
    else
      var live := busy.(recording := true, start := Some(now));
      Completed(live.(enabled := true), db1.(recording := Some(true)), [ClearBuffer, StartCapture])
  }

  /** `onStop`: stops the audio capture and leaves recording with
      `done = now - start`. It writes nothing to the store. Without a
      recorder, `recorder.stop()` throws and the page stays disabled. */
  function OnStop(s: Session, db: Db, now: int): (r: Outcome)
    ensures r.db == db
    ensures !r.session.enabled
    ensures s.recorder <==> r.Completed?
    ensures s.recorder ==>
              && r.session == s.(recording := false, enabled := false, done := r.session.done)
              && (s.start.Some? ==> r.session.done == Millis(now - s.start.value))
              && (s.start.None? ==> r.session.done == NaN)
              && r.audio == [StopCapture]
    ensures !s.recorder ==> r.session == Busy(s) && r.audio == []
  {
    var busy := Busy(s);
    if !busy.recorder then Threw(busy, db, [])
    else
      var elapsed := if busy.start.Some? then Millis(now - busy.start.value) else NaN;
      Completed(busy.(recording := false, done := elapsed), db, [StopCapture])
  }

  /** The control the page shows next to the editor. */
  datatype Control = StopButton(active: bool) | ViewLink | RecordButton(active: bool)

  /** The control the page shows in place of the Record button: Stop while
      recording, the view link once `done` is truthy, Record otherwise. A
      button is live only when no handler is in flight, and Record also
      needs a recorder. */
  function ControlOf(s: Session): (r: Control)
    ensures r.StopButton? <==> s.recording
    ensures r.ViewLink? <==> !s.recording && Truthy(s.done)
    ensures r.StopButton? ==> (r.active <==> s.enabled)
    ensures r.RecordButton? ==> (r.active <==> s.recorder && s.enabled)
  {
    if s.recording then StopButton(s.enabled)
    else if Truthy(s.done) then ViewLink
    else RecordButton(s.recorder && s.enabled)
  }

  /** The name field and the editor are disabled once `done` is truthy. */
  predicate Editable(s: Session) {
    !Truthy(s.done)
  }

  /** Some click would start `onRecord` or `onStop`. */
  predicate CanClick(s: Session) {
    var c := ControlOf(s);
    (c.StopButton? || c.RecordButton?) && c.active
  }

  /** The Record button fires only when a recorder exists, no handler is in
      flight, and the session is neither recording nor done. */
  lemma RecordButtonGuard(s: Session)
    ensures ControlOf(s) == RecordButton(true) <==>
              !s.recording && !Truthy(s.done) && s.recorder && s.enabled
  {
  }

  /** While `onRecord` or `onStop` is in flight no button can be clicked. */
  lemma BusyIsInert(s: Session)
    ensures !CanClick(Busy(s))
  {
  }

  /** After a completed `onRecord` the Stop button is live and the Record
      button is gone. */
  lemma RecordShowsStop(s: Session, db: Db, now: int, uid: string, history: string)
    requires s.recorder
    ensures ControlOf(OnRecord(s, db, now, uid, history).session) == StopButton(true)
  {
  }

  /** After `onStop`, whether it completes or throws, nothing on the page can
      start another recording or stop again. */
  lemma StopIsFinal(s: Session, db: Db, now: int)
    ensures !CanClick(OnStop(s, db, now).session)
  {
  }

  /** Reopening a session whose store says it was recorded shows the view
      link and locks the editor, whether or not the microphone is granted. */
  lemma ReopenRecordedIsLocked(s: Session, db: Db, granted: bool)
    requires !s.recording
    requires db.recording == Some(true)
    ensures ControlOf(Init(s, db, granted).session) == ViewLink
    ensures !Editable(Init(s, db, granted).session)
  {
  }

  /** A session nobody has written yet (`val` is null, read as `{}`) opens
      with an empty editor, no name and an editable page; the Record button
      is live exactly when the microphone was granted. */
  lemma NewSessionOpensBlank(granted: bool)
    ensures var r := Init(Fresh, Empty, granted).session;
            && r.code == Some("") && r.name == None
            && Editable(r) && ControlOf(r) == RecordButton(granted)
  {
  }

  /** A refused microphone leaves a fresh page with an inert Record button
      but an editable editor. */
  lemma DeniedDeviceStillEditable(db: Db)
    requires db.recording != Some(true)
    ensures ControlOf(Init(Fresh, db, false).session) == RecordButton(false)
    ensures Editable(Init(Fresh, db, false).session)
  {
  }

  /** One user action, as the page dispatches it. */
  datatype Action =
    | Load(granted: bool)
    | Rename(name: string)
    | Edit(code: string, history: string)
    | Move(sel: Selection.Range)
    | RecordClick(uid: string, history: string)
    | StopClick

  function Handle(s: Session, db: Db, now: int, a: Action): Outcome {
    match a
    case Load(granted) => Init(s, db, granted)
    case Rename(name) => var st := OnName(s, db, name); Completed(st.session, st.db, [])
    case Edit(code, history) => var st := OnCode(s, db, now, code, history); Completed(st.session, st.db, [])
    case Move(sel) => var st := OnCursor(s, db, now, sel); Completed(st.session, st.db, [])
    case RecordClick(uid, history) => OnRecord(s, db, now, uid, history)
    case StopClick => OnStop(s, db, now)
  }

  /** A recording session always has a bound start instant. */
  predicate Consistent(s: Session) {
    s.recording ==> StartBound(s)
  }

  /** With a clock that reads after the epoch, every handler keeps a
      recording session's start instant bound. */
  lemma HandlePreservesConsistent(s: Session, db: Db, now: int, a: Action)
    requires now > 0
    requires Consistent(s)
    ensures Consistent(Handle(s, db, now, a).session)
  {
  }

  /** Stopping a consistent session records a real elapsed time, which is
      not negative when the clock has not gone back. */
  lemma StopElapsed(s: Session, db: Db, now: int)
    requires Consistent(s) && s.recording && s.recorder
    requires s.start.value <= now
    ensures OnStop(s, db, now).session.done == Millis(now - s.start.value)
    ensures OnStop(s, db, now).session.done.ms >= 0
  {
  }

  /** A cursor move stores nothing of the document: the store it produces
      does not depend on the editor's text. */
  lemma CursorIgnoresCode(s: Session, db: Db, now: int, sel: Selection.Range, c1: Option<string>, c2: Option<string>)
    ensures OnCursor(s.(code := c1), db, now, sel).db == OnCursor(s.(code := c2), db, now, sel).db
  {
  }
}

=== FILE: selection.dfy ===
/** The payload a cursor move stores: `JSON.stringify` of an object holding
    only the anchor and head positions, each as `{line, ch}`. The module
    gives the exact text the serialiser produces for such an object and a
    parser that reads it back, and proves that the two are inverse. */
module Selection {
  import opened Wrappers

  /** A CodeMirror position: zero-based line and character column. */
  datatype Pos = Pos(line: nat, ch: nat)

  /** A selection: where it was started (anchor) and where the cursor is
      (head). It carries no document text. */
  datatype Range = Range(anchor: Pos, head: Pos)

  predicate IsDigit(c: char) {
    '0' <= c <= '9'
  }

  predicate AllDigits(s: string) {
    forall i :: 0 <= i < |s| ==> IsDigit(s[i])
  }

  function DigitValue(c: char): (d: nat)
    requires IsDigit(c)
    ensures d < 10
  {
    c as int - '0' as int
  }

  function DigitChar(d: nat): (c: char)
    requires d < 10
    ensures IsDigit(c) && DigitValue(c) == d
  {
    "0123456789"[d]
  }

  /** The decimal text `JSON.stringify` produces for a non-negative integer:
      no sign, no leading zeros. */
  function Decimal(n: nat): (s: string)
    ensures 1 <= |s| && AllDigits(s)
    ensures |s| > 1 ==> s[0] != '0'
  {
    if n < 10 then [DigitChar(n)]
    else Decimal(n / 10) + [DigitChar(n % 10)]
  }

  /** The number a string of decimal digits denotes. */
  function DigitsValue(s: string): nat
    requires AllDigits(s)
  {
    if |s| == 0 then 0
    else DigitsValue(s[..|s| - 1]) * 10 + DigitValue(s[|s| - 1])
  }

  lemma {:induction false} DecimalValue(n: nat)
    ensures DigitsValue(Decimal(n)) == n
  {
    if n >= 10 {
      var s := Decimal(n);
      assert s[..|s| - 1] == Decimal(n / 10);
      DecimalValue(n / 10);
    }
  }

  /** Length of the longest run of digits at the front of `s`. */
  function DigitRun(s: string): (k: nat)
    ensures k <= |s|
    ensures AllDigits(s[..k])
    ensures k < |s| ==> !IsDigit(s[k])
  {
    if |s| == 0 || !IsDigit(s[0]) then 0
    else
      var k := 1 + DigitRun(s[1..]);
      assert s[..k] == [s[0]] + s[1..][..k - 1];
      k
  }

  lemma {:induction false} DigitRunOfDigits(d: string, rest: string)
    requires AllDigits(d)
    requires rest == [] || !IsDigit(rest[0])
    ensures DigitRun(d + rest) == |d|
  {
    if |d| > 0 {
      assert (d + rest)[1..] == d[1..] + rest;
      DigitRunOfDigits(d[1..], rest);
    } else {
      assert d + rest == rest;
    }
  }

  /** Reads a JSON non-negative integer: a non-empty run of digits with no
      leading zero; yields its value and what follows. */
  function ReadNat(s: string): Option<(nat, string)>
  {
    var k := DigitRun(s);
    if k == 0 || (k > 1 && s[0] == '0') then None
    else Some((DigitsValue(s[..k]), s[k..]))
  }

  lemma ReadNatDecimal(n: nat, rest: string)
    requires rest == [] || !IsDigit(rest[0])
    ensures ReadNat(Decimal(n) + rest) == Some((n, rest))
  {
    var d := Decimal(n);
    DigitRunOfDigits(d, rest);
    assert (d + rest)[..|d|] == d;
    assert (d + rest)[|d|..] == rest;
    assert (d + rest)[0] == d[0];
    DecimalValue(n);
  }

  /** Consumes the literal `lit` at the front of `s`. */
  function Expect(lit: string, s: string): Option<string>
  {
    if lit <= s then Some(s[|lit|..]) else None
  }

  lemma ExpectLiteral(lit: string, rest: string)
    ensures Expect(lit, lit + rest) == Some(rest)
  {
    assert lit <= lit + rest;
    assert (lit + rest)[|lit|..] == rest;
  }

  const OpenAnchor: string := "{\"anchor\":{\"line\":"
  const Ch: string := ",\"ch\":"
  const OpenHead: string := "},\"head\":{\"line\":"
  const Close: string := "}}"

  /** `JSON.stringify({anchor: {line, ch}, head: {line, ch}})`, keys in
      insertion order and no whitespace: a JSON object text, braces at both
      ends. `ParseSerialize` states that `Parse` reads it back. */
  function Serialize(r: Range): (s: string)
    ensures |s| > 0 && s[0] == '{' && s[|s| - 1] == '}'
  {
    OpenAnchor + (Decimal(r.anchor.line) + (Ch + (Decimal(r.anchor.ch) +
    (OpenHead + (Decimal(r.head.line) + (Ch + (Decimal(r.head.ch) + Close)))))))
  }

  /** Reads back the text `Serialize` produces: the fixed keys and
      punctuation around four integers without leading zeros; anything else
      fails. */
  function Parse(s: string): Option<Range>
  {
    var s1 :- Expect(OpenAnchor, s);
    var al :- ReadNat(s1);
    var s2 :- Expect(Ch, al.1);
    var ac :- ReadNat(s2);
    var s3 :- Expect(OpenHead, ac.1);
    var hl :- ReadNat(s3);
    var s4 :- Expect(Ch, hl.1);
    var hc :- ReadNat(s4);
    var s5 :- Expect(Close, hc.1);
    if s5 == [] then Some(Range(Pos(al.0, ac.0), Pos(hl.0, hc.0))) else None
  }

  /** The stored selection text parses back to the same anchor and head. */
  lemma ParseSerialize(r: Range)
    ensures Parse(Serialize(r)) == Some(r)
  {
    var t4 := Decimal(r.head.ch) + Close;
    var t3 := Decimal(r.head.line) + (Ch + t4);
    var t2 := Decimal(r.anchor.ch) + (OpenHead + t3);
    var t1 := Decimal(r.anchor.line) + (Ch + t2);
    ExpectLiteral(OpenAnchor, t1);
    ReadNatDecimal(r.anchor.line, Ch + t2);
    ExpectLiteral(Ch, t2);
    ReadNatDecimal(r.anchor.ch, OpenHead + t3);
    ExpectLiteral(OpenHead, t3);
    ReadNatDecimal(r.head.line, Ch + t4);
    ExpectLiteral(Ch, t4);
    ReadNatDecimal(r.head.ch, Close);
    ExpectLiteral(Close, []);
    assert Close + [] == Close;
  }

  /** Distinct selections are stored as distinct texts. */
  lemma SerializeInjective(a: Range, b: Range)
    requires Serialize(a) == Serialize(b)
    ensures a == b
  {
    ParseSerialize(a);
    ParseSerialize(b);
  }
}

=== FILE: store.dfy ===
/** The slice of the realtime key/value store one recording session uses,
    as a plain value. Each path under `/sessions/{id}` becomes a field:
    `initial`, `code/{offset}`, `select/{offset}`, `owner`, `recording` and
    `name`. Offset-keyed paths become maps from the offset. */
module Store {
  import opened Wrappers

  /** A full document state: the text and the serialised edit history
      (kept as opaque text). */
  datatype Snapshot = Snapshot(code: string, history: string)

  datatype Db = Db(
    initial: Option<Snapshot>,
    code: map<int, Snapshot>,
    select: map<int, string>,
    owner: Option<string>,
    recording: Option<bool>,
    name: Option<string>)

  /** What a store read returns for a session nobody has written yet. */
  const Empty: Db := Db(None, map[], map[], None, None, None)

  /** `m'` is `m` after one point write of `v` at `k`: `k` now holds `v`,
      every other key is present and valued exactly as before. */
  ghost predicate PointWrite<K(!new), V>(m: map<K, V>, m': map<K, V>, k: K, v: V) {
    && k in m' && m'[k] == v
    && (forall j :: j != k ==> (j in m' <==> j in m))
    && (forall j :: j != k && j in m ==> m'[j] == m[j])
  }
}

=== FILE: wrappers.dfy ===
/** An optional value, usable with `:-` so that parsers can stop at the first
    missing piece. It also stands for a JavaScript property that may be
    `undefined`. */
module Wrappers {

  datatype Option<+T> = None | Some(value: T) {

    predicate IsFailure() {
      None?
    }

    function PropagateFailure<U>(): Option<U>
      requires None?
    {
      None
    }

    function Extract(): T
      requires Some?
    {
      value
    }
  }
}
